=== FILE: README.md ===
# pyxapi id lookups and OSM XML streaming, in Dafny

This project models the core of pyxapi's `pyxapi/xapi.py`. pyxapi is a small
OpenStreetMap read API: each request stages nodes, ways and relations in three
temporary tables, and then streams them as OSM XML.

- **Id lookups.** The routes `/api/0.6/node/<ids>`, `/api/0.6/way/<ids>` and
  `/api/0.6/relation/<ids>` (`Staging.NodeLookup`, `Staging.WayLookup`,
  `Staging.RelationLookup`) each stage one table from an id list and leave the
  other two empty. A route answers not-found when no id matched.
- **Way-node backfill.** The way route also runs a single-pass backfill
  (`Staging.BackfillWayNodes`). It takes the distinct node ids the staged ways
  list, drops those already staged, and inserts the stored nodes that carry the
  remaining ids.
- **The store and staged tables.** Both are modelled as maps from id to row
  (`Osm.Tables`). Each SQL statement becomes an operation on those maps.
- **XML streaming.** `stream_osm_data` becomes `Xml.StreamOsmData`, a function
  from rows already in `ORDER BY id` order to the sequence of string chunks the
  generator yields. `Serve.SortedIds` models the `ORDER BY id` queries.
  `Serve.Respond` joins a lookup to its response.
- **The partner reader.** `XmlRead.Decode` reads a chunk sequence back into
  elements: kind, id and tags. It checks the chunk layout of each element and
  the id on its start chunk. It does not check the other attributes on the
  start chunk: a bare `<node id="5"` is read as a node start. The round-trip
  lemma `XmlRead.DecodeStreamOsmData` ties the reader to the serializer. It
  carries the document-order and tag-count properties over to the chunk
  sequence. It does not carry them over to the joined response body, which has
  no chunk boundaries (`XmlRead.JoinedTagValueForgesTag`).
- **The connection's transaction.** `Session` models the temporary tables that
  stay open on the one shared database connection between requests. The
  lookups assume each request starts with no staged tables. The code does not
  ensure this after a not-found reply (see "## Findings").

Relations are rendered as the code writes them. The start line already ends in
`>` and a newline. A second chunk follows: `>` when the relation has tags, `/>`
when it has none. After the tag lines, `</relation>` is always written. The
element is still well-formed XML, since `>` and `/>` are legal as text. But a
relation never closes itself, and it carries a stray `>` or `/>` text child
before its tags. The model keeps this shape and proves it
(`Xml.RelationChunks`). Relation members are never read or written by this
code, so the model has none.

The stored procedure `unnest_bbox_way_nodes()` has no body here. Its result
enters `Staging.WayLookup` and `Staging.BackfillWayNodes` as the parameter
`wayNodes`. The precondition assumes the procedure's effect: a node id is in
`wayNodes` exactly when some staged way lists it.

## Model

| member | source | states |
|---|---|---|
| `Decimal.ParseIntToString` | pyxapi/xapi.py:18 | the decimal text written for an integer attribute such as `id="{id}"` reads back as that integer, negative ids included |
| `Decimal.IntToStringInjective` | pyxapi/xapi.py:36 | two different ids never render as the same attribute text |
| `Xml.StreamOsmData` | pyxapi/xapi.py:11-64 | the document starts with the XML declaration and then the fixed `<osm version="0.6" generator="pyxapi" ...>` line, and its last chunk is `</osm>` |
| `Xml.NodeChunks` | pyxapi/xapi.py:16-29 | a node starts with its open line; its last chunk is `/>` exactly when it has no tags; otherwise the chunk after the open line is `>`, the last chunk is `</node>`, and the element holds one tag line per tag |
| `Xml.WayChunks` | pyxapi/xapi.py:34-46 | the same shape for a way, closed by `</way>` |
| `Xml.RelationChunks` | pyxapi/xapi.py:50-62 | a relation's open line already ends in `>`; the next chunk is `>` if it has tags and `/>` if not; the last chunk is always `</relation>`; one tag line per tag |
| `Xml.Body` | pyxapi/xapi.py:11-64 | the response body sent for a chunk sequence is empty when there are no chunks, and otherwise starts with the first chunk |
| `Xml.BodyAppend` | pyxapi/xapi.py:11-64 | the body of two chunk runs written one after the other is the first run's body followed by the second's |
| `Xml.TagLinesAreTagLines` | pyxapi/xapi.py:23-25 | rendering a tag map gives exactly as many tag lines as the map has entries |
| `Xml.TagLineAmbiguous` | pyxapi/xapi.py:25 | tag text is not escaped, so two different tags can produce the same `<tag k='..' v='..'/>` line |
| `XmlRead.JoinedTagValueForgesTag` | pyxapi/xapi.py:25 | once the chunks are joined, a tag value holding `'/>`, a newline and `<tag k='c' v='d` forges a second tag line: two nodes with apostrophe-free keys that read back differently as chunks send the same body |
| `XmlRead.ReadTagLineOfRendered` | pyxapi/xapi.py:42 | a tag line reads back as its key and value whenever the key has no apostrophe |
| `XmlRead.DecodeStreamOsmData` | pyxapi/xapi.py:9-64 | reading the streamed chunk sequence back gives every node, then every way, then every relation, each with its id and tags, in the order the rows were supplied |
| `XmlRead.ElementsInDocumentOrder` | pyxapi/xapi.py:14-48 | with each table in id order, all node elements come before all way elements, which come before all relation elements, and ids ascend within each block |
| `Serve.SortedIds` | pyxapi/xapi.py:14 | `ORDER BY id` lists each staged id exactly once, in strictly ascending order |
| `Serve.OrderedRows` | pyxapi/xapi.py:14-48 | the three queries return exactly the staged rows of each table, each table's rows in ascending id order |
| `Serve.Respond` | pyxapi/xapi.py:92-99 | a lookup that matched nothing yields the not-found reply and no document; a successful lookup yields a chunk sequence that has the fixed header and footer and reads back as the kind, id and tags of exactly the staged rows, in document order |
| `Staging.SelectIds` | pyxapi/xapi.py:87-90 | `WHERE id IN ids` keeps exactly the stored rows whose key is requested, each unchanged under the same key |
| `Staging.NoRowsMeansNoMatch` | pyxapi/xapi.py:117-118 | `rowcount < 1` after `WHERE id IN ids` holds exactly when none of the requested ids is stored |
| `Staging.NodeLookup` | pyxapi/xapi.py:81-99 | not-found exactly when no requested node id is stored; otherwise the staged nodes are the stored nodes with requested ids, and no ways or relations are staged |
| `Staging.WayLookup` | pyxapi/xapi.py:101-139 | not-found exactly when no requested way id is stored; otherwise the staged ways are the requested stored ways, the staged nodes are exactly the stored nodes those ways list, and no relations are staged |
| `Staging.RelationLookup` | pyxapi/xapi.py:141-165 | not-found exactly when no requested relation id is stored; otherwise only the requested stored relations are staged, and no nodes or ways |
| `Staging.LookupsStageStoredRows` | pyxapi/xapi.py:87-90 | every route stages only unchanged copies of stored rows, each under its own id |
| `Staging.WayLookupComplete` | pyxapi/xapi.py:122-135 | after the way route, every stored node listed by a staged way is staged |
| `Staging.Distinct` | pyxapi/xapi.py:125 | `SELECT DISTINCT` keeps each id once and loses none |
| `Staging.Unstaged` | pyxapi/xapi.py:126-128 | the `NOT EXISTS` filter keeps exactly the ids not yet staged, without repeats |
| `Staging.MissingWayNodes` | pyxapi/xapi.py:124-130 | the missing set holds each listed-but-unstaged id exactly once, which is why the primary key on it can be added |
| `Staging.JoinNodes` | pyxapi/xapi.py:132-133 | the inner join yields the stored row of every missing id that is stored, and only those rows; ids are distinct when the missing ids are |
| `Staging.InsertNodes` | pyxapi/xapi.py:132 | inserting rows with new, distinct ids adds each row under its id, keeps every earlier row, and grows the table by the number of rows |
| `Staging.BackfillWayNodes` | pyxapi/xapi.py:122-133 | after the backfill, the staged nodes are the earlier ones, unchanged, plus the stored nodes the staged ways list; ways and relations are untouched |
| `Staging.BackfillInsertsOnce` | pyxapi/xapi.py:124-133 | the backfill never inserts an id twice and never re-inserts a node that is already staged |
| `Staging.BackfillComplete` | pyxapi/xapi.py:123-133 | after the backfill, every stored node that a staged way lists is staged |
| `Staging.BackfillIdempotent` | pyxapi/xapi.py:124-128 | a second backfill over the same ways finds nothing missing and changes nothing |
| `Session.CreateTemp` | pyxapi/xapi.py:87-90 | `CREATE TEMPORARY TABLE` without `IF NOT EXISTS` aborts the transaction exactly when it is already aborted or the table exists; otherwise it adds the table; an aborted transaction stays as it is |
| `Session.CreateAll` | pyxapi/xapi.py:107-115 | creating temporary tables one after another aborts the transaction exactly when a name is already a table at its turn; otherwise every name is added |
| `Session.RouteAsWritten` | pyxapi/xapi.py:81-99 | as written, a request fails with a database error exactly when its transaction is aborted or a table it creates already exists (those after the check only on a match); otherwise it answers not-found exactly when nothing matched, and that reply leaves the transaction open holding the tables created before the check; a failure leaves the transaction aborted; a served stream ends with the rollback |
| `Session.Route` | pyxapi/xapi.py:141-165 | with a rollback before the not-found reply too, the replies are decided by the same conditions, and every reply other than a database error leaves a fresh transaction |
| `Session.RollbackKeepsReplies` | pyxapi/xapi.py:92-93 | that added rollback changes no reply; it changes the transaction left behind exactly after a not-found reply |
| `Session.RunAsWritten` | pyxapi/xapi.py:6 | requests served in turn on the one shared connection, as written, get one reply each; a document only when the request matched, not-found only when it did not, and a database error otherwise |
| `Session.Run` | pyxapi/xapi.py:6 | the same run with the rollback before not-found: one reply per request, with the same agreement between replies and matches |
| `Session.NotFoundBreaksNextRequest` | pyxapi/xapi.py:92-93 | as written, a not-found reply leaves `bbox_nodes` in the open transaction, so the next request on the connection fails, whatever its route |
| `Session.AbortedRunFails` | pyxapi/xapi.py:6 | as written, nothing rolls back an aborted transaction on the shared connection, so every later request fails |
| `Session.NotFoundPoisonsRun` | pyxapi/xapi.py:117-118 | as written, a run that starts with a not-found reply fails on every later request |
| `Session.RouteFromFresh` | pyxapi/xapi.py:162-165 | with a rollback before the not-found reply, a request from a fresh transaction is served exactly when its lookup matched, and leaves the transaction fresh |
| `Session.RunNeverFails` | pyxapi/xapi.py:141-165 | with that rollback, every request of any run gets the reply its lookup calls for: a document when it matched, not-found otherwise |

## Left out

- Flask routing, `Response` objects, HTTP status codes and mimetypes are not modelled. `Serve.Response` only tells the not-found reply from a document. This is web plumbing.
- The `/api/capabilities` route returns a static document and has no logic to model.
- The not-found message text is not modelled: `NotFound` carries only the kind and the requested ids. The message embeds Python's repr of the id list.
- The lookups in `Staging` start from empty staged tables, that is, from a fresh transaction. Only `Session` models what the connection carries over between requests (see "## Findings").
- A client that abandons the stream before its end also skips the `rollback()` at line 67, like the not-found reply. So does an exception raised inside the generator, such as a `NULL` relation tags column or an `encode` failure (see below). Both leave the transaction open with its tables. `Session` treats every stream as run to completion.
- Requests on the one connection `db` (line 6) are taken to be served one at a time. `app.run(debug=True)` (line 168) starts Flask's development server, which serves requests on threads in current Flask versions. Two overlapping requests then share one transaction, and the second `CREATE TEMPORARY TABLE bbox_nodes` (lines 87, 107, 147) fails even with a rollback before every reply. `Session.RunNeverFails`, and the fresh start the lookups in `Staging` assume, hold only for requests served one after another.
- An hstore entry whose value is NULL arrives as `None` and is written as `v='None'`. `Tag.value` is a string, so this case is not modelled.
- The database connection, cursors, hstore registration, SQL text, `ANALYZE`, the temporary-table DDL and the closing `rollback()` are not modelled. They are database I/O, and the model replaces the SQL with map operations.
- The node route creates `bbox_ways` with the `nodes` schema. This does not matter here: the table is empty either way.
- The body of `unnest_bbox_way_nodes()` is not part of this model. It is a stored procedure. Its effect is the `wayNodes` precondition described above.
- Id-list parsing is not modelled. The ids are a given `seq<int>`. The `split(',')`, and PostgreSQL converting each text id to a `bigint` (or raising on a malformed one), are left out.
- Latitude, longitude and timestamps are kept as opaque strings, because float formatting and `isoformat()` are library behaviour. The UTF-8 `encode` calls (lines 25, 42, 60) are also left out: strings are `seq<char>`. Under Python 2, calling `.encode('utf-8')` on a byte string that holds non-ASCII text raises `UnicodeDecodeError` while streaming, and that skips the rollback at line 67.
- The debug `print tag` side effect is left out.
- The order in which the driver's dict yields tags is taken to be the order of the `Tags` sequence.
- A `NULL` tags column is not modelled: every row has a tag map, possibly empty. With `NULL`, the relation loop would raise while streaming, after the header was sent and before the rollback at line 67.
- `XmlRead.DecodeStreamOsmData`: the round trip is over the chunk sequence, and only for tag keys that contain no apostrophe. The code writes tag keys and values unescaped, so other keys can be misread (`Xml.TagLineAmbiguous`). Once the chunks are joined into the response body, even apostrophe-free keys are not enough. A tag value can forge further tag lines (`XmlRead.JoinedTagValueForgesTag`). Such a value can also make the body ill-formed XML: a lone apostrophe, as in `v='it's'`, ends the attribute early, and so does a `&` that does not start an entity reference. The model states nothing about reading the joined body.
- `Serve.Respond`: the read-back clause has the same conditions. It is about the chunk sequence, and only for apostrophe-free keys in the staged tables. It recovers each row's kind, id and tags, not its `version`, `changeset`, `uid`, `lat`, `lon` or `timestamp`: two staged tables whose rows differ only in those attributes read back alike. The header and footer clause holds for every staged table.
- Way elements are written without `<nd ref=.../>` children (lines 36-46). `Way.refs` exists only for the backfill, and the reader expects no such children.
- Streaming, meaning the generator that yields chunks lazily, becomes the finished chunk sequence.

## Findings

| source | as written | input that shows it | evidently intended | confidence | as-written member | corrected member |
|---|---|---|---|---|---|---|
| pyxapi/xapi.py:92-93 | the not-found reply returns without `rollback()`, as do lines 118 and 163. The transaction and its `ON COMMIT DROP` tables stay open on the one shared connection. | a node lookup for an id that is not stored, then any lookup: its `CREATE TEMPORARY TABLE bbox_nodes` fails, and every later lookup request fails too (`/api/capabilities` still answers) | roll back before every reply, so that each request starts with no staged tables | high; not executed | `Session.NotFoundPoisonsRun` | `Session.RunNeverFails` |

=== FILE: decimal.dfy ===
/**
  Decimal rendering of integers, as Python's `str.format` writes an `int`
  attribute (`id="{id}"`), and the reader that undoes it.
 */
module Decimal {
  import opened Wrappers

  predicate IsDigit(c: char) {
    '0' <= c <= '9'
  }

  predicate AllDigits(s: string) {
    forall i :: 0 <= i < |s| ==> IsDigit(s[i])
  }

  function DigitChar(d: nat): (c: char)
    requires d < 10
    ensures IsDigit(c)
  {
    (48 + d) as char
  }

  function DigitValue(c: char): (d: nat)
    requires IsDigit(c)
    ensures d < 10
  {
    c as int - 48
  }

  /** Most significant digit first, no leading zeros. */
  function NatToString(n: nat): (s: string)
    ensures |s| > 0 && AllDigits(s)
    decreases n
  {
    if n < 10 then [DigitChar(n)] else NatToString(n / 10) + [DigitChar(n % 10)]
  }

  /** Python's decimal form of an int: a minus sign for negatives, then digits. */
  function IntToString(n: int): (s: string)
    ensures |s| > 0
    ensures '"' !in s
  {
    var s := if n < 0 then "-" + NatToString(-n) else NatToString(n);
    assert forall i :: 0 <= i < |s| ==> s[i] == '-' || IsDigit(s[i]);
    s
  }

  function ParseDigits(s: string): nat
    requires AllDigits(s)
  {
    if s == [] then 0 else ParseDigits(s[..|s| - 1]) * 10 + DigitValue(s[|s| - 1])
  }

  /** Reads an optional minus sign followed by at least one digit. */
  function ParseInt(s: string): (r: Option<int>)
    ensures r.Some? ==> |s| > 0
  {
    if |s| > 1 && s[0] == '-' && AllDigits(s[1..]) then Some(0 - ParseDigits(s[1..]) as int)
    else if |s| > 0 && AllDigits(s) then Some(ParseDigits(s))
    else None
  }

  lemma {:induction false} ParseNatToString(n: nat)
    ensures ParseDigits(NatToString(n)) == n
    decreases n
  {
    if n >= 10 {
      var s := NatToString(n);
      assert s[..|s| - 1] == NatToString(n / 10);
      ParseNatToString(n / 10);
    }
  }

  /** Reading back a rendered integer gives the integer. */
  lemma ParseIntToString(n: int)
    ensures ParseInt(IntToString(n)) == Some(n)
  {
    var s := IntToString(n);
    if n < 0 {
      assert s[1..] == NatToString(-n);
      ParseNatToString(-n);
    } else {
      assert s[0] != '-';
      ParseNatToString(n);
    }
  }

  /** Distinct integers render differently. */
  lemma IntToStringInjective(a: int, b: int)
    requires IntToString(a) == IntToString(b)
    ensures a == b
  {
    ParseIntToString(a);
    ParseIntToString(b);
  }
}

=== FILE: osm.dfy ===
/**
  The rows pyxapi reads from its OpenStreetMap snapshot database: nodes, ways
  and relations, each keyed by an integer id, and the triple of id-keyed
  tables used both for the backing store and for the per-request staging
  tables `bbox_nodes`, `bbox_ways` and `bbox_relations`.
 */
module Osm {

  /** One hstore entry. */
  datatype Tag = Tag(key: string, value: string)

  /** A tag map in the order the driver's dict enumerates it; keys are unique. */
  type Tags = seq<Tag>

  predicate UniqueKeys(tags: Tags) {
    forall i, j :: 0 <= i < j < |tags| ==> tags[i].key != tags[j].key
  }

  /** Latitude, longitude and the timestamp are kept in their rendered text form. */
  datatype Node = Node(
    id: int, version: int, changeset: int,
    lat: string, lon: string,
    uid: int, timestamp: string, tags: Tags)

  /** `refs` is the way's ordered node list; repeats are allowed. */
  datatype Way = Way(
    id: int, version: int, changeset: int,
    uid: int, timestamp: string, tags: Tags, refs: seq<int>)

  datatype Relation = Relation(
    id: int, version: int, changeset: int,
    uid: int, timestamp: string, tags: Tags)

  datatype Kind = NodeKind | WayKind | RelationKind

  /** Three tables keyed by id: the stored snapshot, or one request's staged rows. */
  datatype Tables = Tables(
    nodes: map<int, Node>,
    ways: map<int, Way>,
    relations: map<int, Relation>)

  const NoRows := Tables(map[], map[], map[])

  /** Every row sits under its own id and carries a proper tag map (the primary key). */
  predicate WellKeyed(t: Tables) {
    && (forall k :: k in t.nodes ==> t.nodes[k].id == k && UniqueKeys(t.nodes[k].tags))
    && (forall k :: k in t.ways ==> t.ways[k].id == k && UniqueKeys(t.ways[k].tags))
    && (forall k :: k in t.relations ==> t.relations[k].id == k && UniqueKeys(t.relations[k].tags))
  }

  /** Each staged table holds only rows copied unchanged from the store. */
  predicate StagedFrom(t: Tables, store: Tables) {
    && (forall k :: k in t.nodes ==> k in store.nodes && t.nodes[k] == store.nodes[k])
    && (forall k :: k in t.ways ==> k in store.ways && t.ways[k] == store.ways[k])
    && (forall k :: k in t.relations ==> k in store.relations && t.relations[k] == store.relations[k])
  }

  /** Some way in `ways` lists node id `k`. */
  predicate Referenced(ways: map<int, Way>, k: int) {
    exists w :: w in ways && k in ways[w].refs
  }
}

=== FILE: serve.dfy ===
/**
  What a lookup route hands back: the 404 for an unmatched id list, or the
  document `stream_osm_data` writes for the staged tables. The serializer's
  three `SELECT ... ORDER BY id` queries are modelled by `SortedIds`.
 */
module Serve {
  import opened Osm
  import opened Xml
  import opened XmlRead
  import opened Staging

  datatype Response = NotFoundResponse(kind: Kind, ids: seq<int>) | XmlDocument(chunks: seq<string>)

  predicate StrictlyIncreasing(ks: seq<int>) {
    forall i, j :: 0 <= i < j < |ks| ==> ks[i] < ks[j]
  }

  /** Places `k` among the sorted `ks`. */
  function InsertSorted(ks: seq<int>, k: int): (r: seq<int>)
    requires StrictlyIncreasing(ks) && k !in ks
    ensures StrictlyIncreasing(r)
    ensures forall x :: x in r <==> x in ks || x == k
    decreases |ks|
  {
    if ks == [] || k < ks[0] then [k] + ks
    else
      var tail := InsertSorted(ks[1..], k);
      HeadBelowTail(ks);
      assert ks[0] in ks;
      assert forall j :: 0 <= j < |tail| ==> ks[0] < tail[j] by {
        forall j | 0 <= j < |tail| ensures ks[0] < tail[j] {
          assert tail[j] in tail;
        }
      }
      [ks[0]] + tail
  }

  /** In a strictly increasing sequence the first element is below all the others. */
  lemma HeadBelowTail(ks: seq<int>)
    requires |ks| > 0 && StrictlyIncreasing(ks)
    ensures StrictlyIncreasing(ks[1..])
    ensures forall x :: x in ks <==> x == ks[0] || x in ks[1..]
    ensures forall x :: x in ks[1..] ==> ks[0] < x
  {
    forall x | x in ks[1..] ensures ks[0] < x {
      var m :| 0 <= m < |ks[1..]| && ks[1..][m] == x;
      assert ks[m + 1] == x;
    }
  }

  lemma EmptyOrHasElement(s: set<int>)
    ensures s == {} || exists x :: x in s
  {
    if forall x :: x !in s {
      assert s == {};
    }
  }

  /** The keys of a table in ascending order, each once: `ORDER BY id`. */
  method SortedIds<T>(table: map<int, T>) returns (ks: seq<int>)
    ensures StrictlyIncreasing(ks)
    ensures forall k :: k in ks <==> k in table
  {
    ks := [];
    var rest := table.Keys;
    while rest != {}
      invariant rest <= table.Keys
      invariant StrictlyIncreasing(ks)
      invariant forall k :: k in ks <==> k in table && k !in rest
      decreases rest
    {
      EmptyOrHasElement(rest);
      var k :| k in rest;
      ks := InsertSorted(ks, k);
      rest := rest - {k};
    }
  }

  /** The staged rows of each table, ascending by id. */
  method OrderedRows(t: Tables) returns (ns: seq<Node>, ws: seq<Way>, rs: seq<Relation>)
    requires WellKeyed(t)
    ensures IdsAscending(NodeElements(ns)) && IdsAscending(WayElements(ws))
    ensures IdsAscending(RelationElements(rs))
    ensures forall i :: 0 <= i < |ns| ==> ns[i].id in t.nodes && ns[i] == t.nodes[ns[i].id]
    ensures forall i :: 0 <= i < |ws| ==> ws[i].id in t.ways && ws[i] == t.ways[ws[i].id]
    ensures forall i :: 0 <= i < |rs| ==> rs[i].id in t.relations && rs[i] == t.relations[rs[i].id]
    ensures forall k :: k in t.nodes ==> t.nodes[k] in ns
    ensures forall k :: k in t.ways ==> t.ways[k] in ws
    ensures forall k :: k in t.relations ==> t.relations[k] in rs
  {
    var nk := SortedIds(t.nodes);
    forall i | 0 <= i < |nk| ensures nk[i] in t.nodes {
      assert nk[i] in nk;
    }
    ns := seq(|nk|, i requires 0 <= i < |nk| => t.nodes[nk[i]]);
    var wk := SortedIds(t.ways);
    forall i | 0 <= i < |wk| ensures wk[i] in t.ways {
      assert wk[i] in wk;
    }
    ws := seq(|wk|, i requires 0 <= i < |wk| => t.ways[wk[i]]);
    var rk := SortedIds(t.relations);
    forall i | 0 <= i < |rk| ensures rk[i] in t.relations {
      assert rk[i] in rk;
    }
    rs := seq(|rk|, i requires 0 <= i < |rk| => t.relations[rk[i]]);
    forall k | k in t.nodes ensures t.nodes[k] in ns {
      var i :| 0 <= i < |nk| && nk[i] == k;
      assert ns[i] == t.nodes[k];
    }
    forall k | k in t.ways ensures t.ways[k] in ws {
      var i :| 0 <= i < |wk| && wk[i] == k;
      assert ws[i] == t.ways[k];
    }
    forall k | k in t.relations ensures t.relations[k] in rs {
      var i :| 0 <= i < |rk| && rk[i] == k;
      assert rs[i] == t.relations[k];
    }
  }

  /** The element a staged row shows up as in the document. */
  predicate ListedIn(es: seq<Element>, t: Tables) {
    && (forall i :: 0 <= i < |es| ==> StagedElement(es[i], t))
    && (forall k :: k in t.nodes ==> Element(NodeKind, k, t.nodes[k].tags) in es)
    && (forall k :: k in t.ways ==> Element(WayKind, k, t.ways[k].tags) in es)
    && (forall k :: k in t.relations ==> Element(RelationKind, k, t.relations[k].tags) in es)
  }

  predicate StagedElement(e: Element, t: Tables) {
    match e.kind
    case NodeKind => e.id in t.nodes && e.tags == t.nodes[e.id].tags
    case WayKind => e.id in t.ways && e.tags == t.ways[e.id].tags
    case RelationKind => e.id in t.relations && e.tags == t.relations[e.id].tags
  }

  predicate PlainTables(t: Tables) {
    && (forall k :: k in t.nodes ==> PlainTags(t.nodes[k].tags))
    && (forall k :: k in t.ways ==> PlainTags(t.ways[k].tags))
    && (forall k :: k in t.relations ==> PlainTags(t.relations[k].tags))
  }

  /**
    The route's reply: no document when nothing matched; otherwise a document
    with the fixed header and footer. When no staged tag key holds an
    apostrophe, its chunk sequence reads back as the kind, id and tags of
    exactly the staged rows, nodes then ways then relations, each block in
    ascending id order.
   */
  method Respond(lookup: Lookup) returns (resp: Response)
    requires lookup.Found? ==> WellKeyed(lookup.staged)
    ensures lookup.NotFound? ==> resp == NotFoundResponse(lookup.kind, lookup.ids)
    ensures lookup.Found? ==> resp.XmlDocument?
    ensures lookup.Found? ==>
      |resp.chunks| >= 3 && resp.chunks[0] == XmlDeclaration && resp.chunks[1] == OsmOpen
      && resp.chunks[|resp.chunks| - 1] == OsmClose
    ensures lookup.Found? && PlainTables(lookup.staged) ==>
      && Decode(resp.chunks).Some?
      && InDocumentOrder(Decode(resp.chunks).value)
      && ListedIn(Decode(resp.chunks).value, lookup.staged)
  {
    if lookup.NotFound? {
      return NotFoundResponse(lookup.kind, lookup.ids);
    }
    var t := lookup.staged;
    var ns, ws, rs := OrderedRows(t);
    resp := XmlDocument(StreamOsmData(ns, ws, rs));
    if PlainTables(t) {
      DecodeStreamOsmData(ns, ws, rs);
      ElementsInDocumentOrder(ns, ws, rs);
      ElementsListTables(t, ns, ws, rs);
    }
  }

  lemma ElementsListTables(t: Tables, ns: seq<Node>, ws: seq<Way>, rs: seq<Relation>)
    requires WellKeyed(t)
    requires forall i :: 0 <= i < |ns| ==> ns[i].id in t.nodes && ns[i] == t.nodes[ns[i].id]
    requires forall i :: 0 <= i < |ws| ==> ws[i].id in t.ways && ws[i] == t.ways[ws[i].id]
    requires forall i :: 0 <= i < |rs| ==> rs[i].id in t.relations && rs[i] == t.relations[rs[i].id]
    requires forall k :: k in t.nodes ==> t.nodes[k] in ns
    requires forall k :: k in t.ways ==> t.ways[k] in ws
    requires forall k :: k in t.relations ==> t.relations[k] in rs
    ensures ListedIn(ElementsOf(ns, ws, rs), t)
  {
    var a, b, c := NodeElements(ns), WayElements(ws), RelationElements(rs);
    var es := ElementsOf(ns, ws, rs);
    forall i | 0 <= i < |es| ensures StagedElement(es[i], t) {
      if i < |a| {
        assert es[i] == a[i];
      } else if i < |a| + |b| {
        assert es[i] == b[i - |a|];
      } else {
        assert es[i] == c[i - |a| - |b|];
      }
    }
    forall k | k in t.nodes ensures Element(NodeKind, k, t.nodes[k].tags) in es {
      var i :| 0 <= i < |ns| && ns[i] == t.nodes[k];
      assert es[i] == a[i];
    }
    forall k | k in t.ways ensures Element(WayKind, k, t.ways[k].tags) in es {
      var i :| 0 <= i < |ws| && ws[i] == t.ways[k];
      assert es[|a| + i] == b[i];
    }
    forall k | k in t.relations ensures Element(RelationKind, k, t.relations[k].tags) in es {
      var i :| 0 <= i < |rs| && rs[i] == t.relations[k];
      assert es[|a| + |b| + i] == c[i];
    }
  }
}

=== FILE: session.dfy ===
/**
  The transaction each route runs in. pyxapi keeps one module-level database
  connection (xapi.py line 6). A route creates its `ON COMMIT DROP` temporary
  tables in the connection's open transaction, and only the end of
  `stream_osm_data` rolls that transaction back (line 67). A not-found reply
  returns before that, so its tables outlive the request, and the next
  `CREATE TEMPORARY TABLE bbox_nodes` fails. `RouteAsWritten` models this;
  `Route` rolls back before the not-found reply as well, so that every
  request starts from the empty staged tables the lookups assume.
 */
module Session {
  import opened Osm

  /** The temporary tables alive in the open transaction, and whether an error aborted it. */
  datatype Transaction = Transaction(temps: set<string>, aborted: bool)

  const Fresh := Transaction({}, false)

  datatype Outcome = Served | NotFoundReply | DatabaseError

  /**
    `CREATE TEMPORARY TABLE name`: an error when the table exists, and in an
    aborted transaction every statement fails until the next rollback.
   */
  function CreateTemp(tx: Transaction, name: string): (r: Transaction)
    ensures r.aborted <==> tx.aborted || name in tx.temps
    ensures !r.aborted ==> r.temps == tx.temps + {name}
    ensures tx.aborted ==> r == tx
  {
    if tx.aborted || name in tx.temps then Transaction(tx.temps, true)
    else Transaction(tx.temps + {name}, false)
  }

  /** A name that is already a table when its turn comes. */
  predicate Clashes(temps: set<string>, names: seq<string>) {
    exists i :: 0 <= i < |names| && (names[i] in temps || names[i] in names[..i])
  }

  function CreateAll(tx: Transaction, names: seq<string>): (r: Transaction)
    ensures tx.aborted ==> r == tx
    ensures r.aborted <==> tx.aborted || Clashes(tx.temps, names)
    ensures !r.aborted ==> r.temps == tx.temps + (set n | n in names)
    decreases |names|
  {
    if names == [] then tx
    else
      var r := CreateAll(CreateTemp(tx, names[0]), names[1..]);
      ClashesStep(tx.temps, names);
      r
  }

  lemma ClashesStep(temps: set<string>, names: seq<string>)
    requires names != []
    ensures Clashes(temps, names)
      <==> names[0] in temps || Clashes(temps + {names[0]}, names[1..])
  {
    var rest := names[1..];
    if Clashes(temps + {names[0]}, rest) {
      var j :| 0 <= j < |rest| && (rest[j] in temps + {names[0]} || rest[j] in rest[..j]);
      assert names[j + 1] == rest[j] && names[..j + 1] == [names[0]] + rest[..j];
    }
    if Clashes(temps, names) && names[0] !in temps {
      var i :| 0 <= i < |names| && (names[i] in temps || names[i] in names[..i]);
      assert i > 0;
      assert rest[i - 1] == names[i] && names[..i] == [names[0]] + rest[..i - 1];
    }
  }

  /** The temporary tables a route creates before it checks `rowcount`. */
  function BeforeCheck(kind: Kind): seq<string> {
    match kind
    case NodeKind => ["bbox_nodes"]
    case WayKind => ["bbox_nodes", "bbox_ways"]
    case RelationKind => ["bbox_nodes", "bbox_ways", "bbox_relations"]
  }

  /** The temporary tables it creates after a match, before streaming. */
  function AfterCheck(kind: Kind): seq<string> {
    match kind
    case NodeKind => ["bbox_ways", "bbox_relations"]
    case WayKind => ["bbox_way_nodes", "bbox_missing_way_nodes", "bbox_relations"]
    case RelationKind => []
  }

  /** The tables a route has created once it reaches the `rowcount` check. */
  function Checked(kind: Kind, tx: Transaction): set<string> {
    tx.temps + (set n | n in BeforeCheck(kind))
  }

  /**
    A route's DDL fails in `tx`: the transaction is already aborted, one of the
    tables it creates before the check exists, or, after a match, one it
    creates afterwards does.
   */
  predicate RouteFails(kind: Kind, matched: bool, tx: Transaction) {
    || tx.aborted
    || Clashes(tx.temps, BeforeCheck(kind))
    || (matched && Clashes(Checked(kind, tx), AfterCheck(kind)))
  }

  /**
    One request as the routes are written: `matched` is whether the lookup
    found a row. A database error propagates and leaves the transaction
    aborted; a not-found reply leaves it open; a finished stream rolls back.
   */
  function RouteAsWritten(kind: Kind, matched: bool, tx: Transaction): (r: (Outcome, Transaction))
    ensures r.0 == DatabaseError <==> RouteFails(kind, matched, tx)
    ensures r.0 == NotFoundReply <==> !RouteFails(kind, matched, tx) && !matched
    ensures r.0 == DatabaseError ==> r.1.aborted
    ensures r.0 == NotFoundReply ==> r.1 == Transaction(Checked(kind, tx), false)
    ensures r.0 == Served ==> r.1 == Fresh
  {
    var t1 := CreateAll(tx, BeforeCheck(kind));
    if t1.aborted then (DatabaseError, t1)
    else if !matched then (NotFoundReply, t1)
    else
      var t2 := CreateAll(t1, AfterCheck(kind));
      if t2.aborted then (DatabaseError, t2) else (Served, Fresh)
  }

  /** The same request with a rollback before the not-found reply too. */
  function Route(kind: Kind, matched: bool, tx: Transaction): (r: (Outcome, Transaction))
    ensures r.0 == DatabaseError <==> RouteFails(kind, matched, tx)
    ensures r.0 == NotFoundReply <==> !RouteFails(kind, matched, tx) && !matched
    ensures r.0 == DatabaseError ==> r.1.aborted
    ensures r.0 != DatabaseError ==> r.1 == Fresh
  {
    var t1 := CreateAll(tx, BeforeCheck(kind));
    if t1.aborted then (DatabaseError, t1)
    else if !matched then (NotFoundReply, Fresh)
    else
      var t2 := CreateAll(t1, AfterCheck(kind));
      if t2.aborted then (DatabaseError, t2) else (Served, Fresh)
  }

  /**
    The rollback changes no reply: both versions answer a request alike, and
    differ only in the transaction a not-found reply leaves behind.
   */
  lemma RollbackKeepsReplies(kind: Kind, matched: bool, tx: Transaction)
    ensures Route(kind, matched, tx).0 == RouteAsWritten(kind, matched, tx).0
    ensures Route(kind, matched, tx).1 != RouteAsWritten(kind, matched, tx).1
      <==> RouteAsWritten(kind, matched, tx).0 == NotFoundReply
  {
  }

  /** A run of requests on the one connection, in arrival order. */
  datatype Request = Request(kind: Kind, matched: bool)

  /**
    A reply that does not contradict the lookup: a document only after a match,
    not-found only without one. A database error answers any request.
   */
  predicate Answers(o: Outcome, req: Request) {
    && (o == Served ==> req.matched)
    && (o == NotFoundReply ==> !req.matched)
  }

  function RunAsWritten(reqs: seq<Request>, tx: Transaction): (out: seq<Outcome>)
    ensures |out| == |reqs|
    ensures forall i :: 0 <= i < |out| ==> Answers(out[i], reqs[i])
    decreases |reqs|
  {
    if reqs == [] then []
    else
      var (o, t) := RouteAsWritten(reqs[0].kind, reqs[0].matched, tx);
      var rest := RunAsWritten(reqs[1..], t);
      assert forall i :: 1 <= i < |reqs| ==> reqs[1..][i - 1] == reqs[i];
      [o] + rest
  }

  function Run(reqs: seq<Request>, tx: Transaction): (out: seq<Outcome>)
    ensures |out| == |reqs|
    ensures forall i :: 0 <= i < |out| ==> Answers(out[i], reqs[i])
    decreases |reqs|
  {
    if reqs == [] then []
    else
      var (o, t) := Route(reqs[0].kind, reqs[0].matched, tx);
      var rest := Run(reqs[1..], t);
      assert forall i :: 1 <= i < |reqs| ==> reqs[1..][i - 1] == reqs[i];
      [o] + rest
  }

  lemma NoClashFromFresh(kind: Kind)
    ensures !Clashes({}, BeforeCheck(kind))
    ensures !Clashes((set n | n in BeforeCheck(kind)), AfterCheck(kind))
  {
    var b, a := BeforeCheck(kind), AfterCheck(kind);
    forall i | 0 <= i < |b| ensures b[i] !in b[..i] {
      assert forall j :: 0 <= j < i ==> b[..i][j] == b[j];
    }
    var bs := set n | n in b;
    forall i | 0 <= i < |a| ensures a[i] !in bs && a[i] !in a[..i] {
      assert forall j :: 0 <= j < i ==> a[..i][j] == a[j];
    }
  }

  /** From a fresh transaction a request is served exactly when it matched, and ends fresh. */
  lemma RouteFromFresh(kind: Kind, matched: bool)
    ensures Route(kind, matched, Fresh) == (if matched then Served else NotFoundReply, Fresh)
  {
    NoClashFromFresh(kind);
  }

  /** With the rollback, every request of a run gets the reply its lookup calls for. */
  lemma {:induction false} RunNeverFails(reqs: seq<Request>)
    ensures forall i :: 0 <= i < |reqs| ==>
      Run(reqs, Fresh)[i] == (if reqs[i].matched then Served else NotFoundReply)
    decreases |reqs|
  {
    if reqs != [] {
      RouteFromFresh(reqs[0].kind, reqs[0].matched);
      RunNeverFails(reqs[1..]);
      var out := Run(reqs, Fresh);
      assert out == [if reqs[0].matched then Served else NotFoundReply] + Run(reqs[1..], Fresh);
      forall i | 1 <= i < |reqs| ensures out[i] == (if reqs[i].matched then Served else NotFoundReply) {
        assert out[i] == Run(reqs[1..], Fresh)[i - 1] && reqs[1..][i - 1] == reqs[i];
      }
    }
  }

  /** As written, a not-found reply leaves `bbox_nodes` in place, and the next request fails. */
  lemma NotFoundBreaksNextRequest(first: Kind, next: Kind, matched: bool)
    ensures RouteAsWritten(first, false, Fresh).0 == NotFoundReply
    ensures RouteAsWritten(next, matched, RouteAsWritten(first, false, Fresh).1).0 == DatabaseError
  {
    NoClashFromFresh(first);
    var t := RouteAsWritten(first, false, Fresh).1;
    assert "bbox_nodes" in t.temps by {
      assert BeforeCheck(first)[0] == "bbox_nodes";
    }
    assert BeforeCheck(next)[0] == "bbox_nodes";
    assert Clashes(t.temps, BeforeCheck(next));
  }

  /** As written, an aborted transaction is never rolled back: every later request fails. */
  lemma {:induction false} AbortedRunFails(reqs: seq<Request>, tx: Transaction)
    requires tx.aborted
    ensures RunAsWritten(reqs, tx) == seq(|reqs|, i => DatabaseError)
    decreases |reqs|
  {
    if reqs != [] {
      AbortedRunFails(reqs[1..], tx);
    }
  }

  /**
    As written, one not-found reply as the first request of a run makes every
    later request on the connection fail, whatever it asks for.
   */
  lemma {:induction false} NotFoundPoisonsRun(reqs: seq<Request>)
    requires |reqs| >= 2 && !reqs[0].matched
    ensures RunAsWritten(reqs, Fresh)[0] == NotFoundReply
    ensures forall i :: 1 <= i < |reqs| ==> RunAsWritten(reqs, Fresh)[i] == DatabaseError
  {
    var t := RouteAsWritten(reqs[0].kind, false, Fresh).1;
    NotFoundBreaksNextRequest(reqs[0].kind, reqs[1].kind, reqs[1].matched);
    var t2 := RouteAsWritten(reqs[1].kind, reqs[1].matched, t).1;
    assert t2.aborted;
    AbortedRunFails(reqs[2..], t2);
    assert reqs[1..][1..] == reqs[2..];
  }
}

=== FILE: staging.dfy ===
/**
  The id-lookup routes `/api/0.6/node/<ids>`, `/way/<ids>` and
  `/relation/<ids>`: each stages one table from an id list, leaves the other
  two empty (the way route then backfills the nodes its ways reference), and
  reports not-found when nothing matched. SQL statements are modelled as
  operations on id-keyed maps.
 */
module Staging {
  import opened Osm

  /** Outcome of a lookup: the staged tables, or the 404 the route returns. */
  datatype Lookup = NotFound(kind: Kind, ids: seq<int>) | Found(staged: Tables)

  predicate NoDuplicates(xs: seq<int>) {
    forall i, j :: 0 <= i < j < |xs| ==> xs[i] != xs[j]
  }

  /** `SELECT * FROM table WHERE id IN ids`. */
  function SelectIds<T>(table: map<int, T>, ids: seq<int>): (r: map<int, T>)
    ensures forall k :: k in r <==> k in table && k in ids
    ensures forall k :: k in r ==> r[k] == table[k]
  {
    map k | k in table && k in ids :: table[k]
  }

  /** `SELECT DISTINCT`: each id once, in order of first appearance. */
  function Distinct(xs: seq<int>): (r: seq<int>)
    ensures NoDuplicates(r)
    ensures forall x :: x in r <==> x in xs
    decreases |xs|
  {
    if xs == [] then []
    else
      var d := Distinct(xs[..|xs| - 1]);
      var last := xs[|xs| - 1];
      assert forall x :: x in xs <==> x in xs[..|xs| - 1] || x == last;
      if last in d then d else d + [last]
  }

  /** `WHERE NOT EXISTS (SELECT * FROM bbox_nodes WHERE id = ...)`: drops ids already staged. */
  function Unstaged(xs: seq<int>, staged: set<int>): (r: seq<int>)
    requires NoDuplicates(xs)
    ensures NoDuplicates(r)
    ensures forall x :: x in r <==> x in xs && x !in staged
    decreases |xs|
  {
    if xs == [] then []
    else
      var tail := Unstaged(xs[1..], staged);
      assert xs[0] !in xs[1..];
      if xs[0] in staged then tail else [xs[0]] + tail
  }

  /**
    `bbox_missing_way_nodes`: the distinct ids listed by the staged ways that
    are not yet staged nodes. `wayNodes` is what `unnest_bbox_way_nodes()` left
    in `bbox_way_nodes`.
   */
  function MissingWayNodes(wayNodes: seq<int>, staged: map<int, Node>): (r: seq<int>)
    ensures NoDuplicates(r)
    ensures forall k :: k in r <==> k in wayNodes && k !in staged
  {
    Unstaged(Distinct(wayNodes), staged.Keys)
  }

  function RowIds(rows: seq<Node>): seq<int> {
    seq(|rows|, i requires 0 <= i < |rows| => rows[i].id)
  }

  /** `SELECT n.* FROM nodes n INNER JOIN missing ON n.id = missing.id`, in `missing` order. */
  function JoinNodes(store: map<int, Node>, missing: seq<int>): (rows: seq<Node>)
    requires forall k :: k in store ==> store[k].id == k
    ensures forall k :: k in RowIds(rows) <==> k in missing && k in store
    ensures forall i :: 0 <= i < |rows| ==> rows[i].id in store && rows[i] == store[rows[i].id]
    ensures NoDuplicates(missing) ==> NoDuplicates(RowIds(rows))
    decreases |missing|
  {
    if missing == [] then []
    else
      var tail := JoinNodes(store, missing[1..]);
      assert NoDuplicates(missing) ==> missing[0] !in missing[1..];
      assert forall k :: k in missing <==> k == missing[0] || k in missing[1..];
      if missing[0] in store then
        var rows := [store[missing[0]]] + tail;
        assert RowIds(rows) == [missing[0]] + RowIds(tail);
        rows
      else tail
  }

  /**
    `INSERT INTO bbox_nodes`, one row at a time. The staged table has no key
    of its own; it stays a map from id to row only because the inserted ids
    are distinct and new, which `BackfillInsertsOnce` shows of the backfill.
   */
  function InsertNodes(table: map<int, Node>, rows: seq<Node>): (r: map<int, Node>)
    requires NoDuplicates(RowIds(rows))
    requires forall i :: 0 <= i < |rows| ==> rows[i].id !in table
    ensures forall k :: k in r <==> k in table || k in RowIds(rows)
    ensures forall k :: k in table ==> r[k] == table[k]
    ensures forall i :: 0 <= i < |rows| ==> rows[i].id in r && r[rows[i].id] == rows[i]
    ensures |r| == |table| + |rows|
    decreases |rows|
  {
    if rows == [] then table
    else
      RowIdsTail(rows);
      InsertNodes(table[rows[0].id := rows[0]], rows[1..])
  }

  /** Splitting the first row off a list of rows with distinct ids. */
  lemma RowIdsTail(rows: seq<Node>)
    requires |rows| > 0 && NoDuplicates(RowIds(rows))
    ensures NoDuplicates(RowIds(rows[1..]))
    ensures forall i :: 0 <= i < |rows[1..]| ==> rows[1..][i].id != rows[0].id
    ensures forall k :: k in RowIds(rows) <==> k == rows[0].id || k in RowIds(rows[1..])
  {
    var ids := RowIds(rows);
    assert RowIds(rows[1..]) == ids[1..];
    NoDuplicatesTail(ids);
    forall i | 0 <= i < |rows[1..]| ensures rows[1..][i].id != rows[0].id {
      assert rows[1..][i].id == ids[1..][i];
      assert ids[1..][i] in ids[1..];
    }
  }

  lemma NoDuplicatesTail(xs: seq<int>)
    requires |xs| > 0 && NoDuplicates(xs)
    ensures NoDuplicates(xs[1..]) && xs[0] !in xs[1..]
    ensures forall k :: k in xs <==> k == xs[0] || k in xs[1..]
  {
    assert xs == [xs[0]] + xs[1..];
    assert forall i :: 0 <= i < |xs[1..]| ==> xs[1..][i] == xs[i + 1];
  }

  /**
    The way route's single-pass backfill (xapi.py lines 122-133): the missing
    ids are computed, then the stored nodes carrying them are inserted.
   */
  function BackfillWayNodes(t: Tables, store: Tables, wayNodes: seq<int>): (r: Tables)
    requires WellKeyed(store)
    requires forall k :: k in wayNodes <==> Referenced(t.ways, k)
    ensures r.ways == t.ways && r.relations == t.relations
    ensures forall k :: k in r.nodes <==> k in t.nodes || (Referenced(t.ways, k) && k in store.nodes)
    ensures forall k :: k in t.nodes ==> r.nodes[k] == t.nodes[k]
    ensures forall k :: k in r.nodes && k !in t.nodes ==> r.nodes[k] == store.nodes[k]
  {
    var missing := MissingWayNodes(wayNodes, t.nodes);
    var rows := JoinNodes(store.nodes, missing);
    BackfillInsertsOnce(t, store, wayNodes);
    var nodes := InsertNodes(t.nodes, rows);
    Tables(nodes, t.ways, t.relations)
  }

  /** The rows the backfill inserts: distinct ids, none of them already staged. */
  lemma BackfillInsertsOnce(t: Tables, store: Tables, wayNodes: seq<int>)
    requires WellKeyed(store)
    ensures var rows := JoinNodes(store.nodes, MissingWayNodes(wayNodes, t.nodes));
      && NoDuplicates(RowIds(rows))
      && (forall i :: 0 <= i < |rows| ==> rows[i].id !in t.nodes)
  {
    var rows := JoinNodes(store.nodes, MissingWayNodes(wayNodes, t.nodes));
    forall i | 0 <= i < |rows| ensures rows[i].id !in t.nodes {
      assert RowIds(rows)[i] == rows[i].id;
    }
  }

  /** After the backfill every stored node a staged way lists is staged. */
  lemma BackfillComplete(t: Tables, store: Tables, wayNodes: seq<int>)
    requires WellKeyed(store)
    requires forall k :: k in wayNodes <==> Referenced(t.ways, k)
    ensures var r := BackfillWayNodes(t, store, wayNodes);
      forall w, k :: w in r.ways && k in r.ways[w].refs && k in store.nodes ==> k in r.nodes
  {
    var r := BackfillWayNodes(t, store, wayNodes);
    forall w, k | w in r.ways && k in r.ways[w].refs && k in store.nodes
      ensures k in r.nodes
    {
      assert Referenced(t.ways, k);
    }
  }

  /** A second backfill over the same ways adds nothing. */
  lemma BackfillIdempotent(t: Tables, store: Tables, wayNodes: seq<int>)
    requires WellKeyed(store)
    requires forall k :: k in wayNodes <==> Referenced(t.ways, k)
    ensures var r := BackfillWayNodes(t, store, wayNodes);
      BackfillWayNodes(r, store, wayNodes) == r
  {
    var r := BackfillWayNodes(t, store, wayNodes);
    var r2 := BackfillWayNodes(r, store, wayNodes);
    assert r2.nodes.Keys == r.nodes.Keys;
    assert r2.nodes == r.nodes;
  }

  /** `cursor.rowcount < 1` after `WHERE id IN ids` exactly when no listed id is stored. */
  lemma NoRowsMeansNoMatch<T>(table: map<int, T>, ids: seq<int>)
    ensures |SelectIds(table, ids)| < 1 <==> forall k :: k in ids ==> k !in table
  {
    var m := SelectIds(table, ids);
    if |m| < 1 {
      assert m.Keys == {};
      forall k | k in ids ensures k !in table {
        assert k !in m;
      }
    }
    if forall k :: k in ids ==> k !in table {
      assert m.Keys == {};
    }
  }

  /** `nodes(ids)`, xapi.py lines 81-99. */
  function NodeLookup(store: Tables, ids: seq<int>): (r: Lookup)
    ensures r.NotFound? <==> forall k :: k in ids ==> k !in store.nodes
    ensures r.NotFound? ==> r == NotFound(NodeKind, ids)
    ensures r.Found? ==>
      && r.staged.ways == map[] && r.staged.relations == map[]
      && (forall k :: k in r.staged.nodes <==> k in ids && k in store.nodes)
  {
    var nodes := SelectIds(store.nodes, ids);
    NoRowsMeansNoMatch(store.nodes, ids);
    if |nodes| < 1 then
      NotFound(NodeKind, ids)
    else
      Found(Tables(nodes, map[], map[]))
  }

  /**
    `ways(ids)`, xapi.py lines 101-139. `wayNodes` is the result of the stored
    procedure `unnest_bbox_way_nodes()`, whose body is not part of this model:
    it lists exactly the node ids referenced by the staged ways.
   */
  function WayLookup(store: Tables, ids: seq<int>, wayNodes: seq<int>): (r: Lookup)
    requires WellKeyed(store)
    requires forall k :: k in wayNodes <==> Referenced(SelectIds(store.ways, ids), k)
    ensures r.NotFound? <==> forall k :: k in ids ==> k !in store.ways
    ensures r.NotFound? ==> r == NotFound(WayKind, ids)
    ensures r.Found? ==>
      && r.staged.relations == map[]
      && (forall k :: k in r.staged.ways <==> k in ids && k in store.ways)
      && (forall k :: k in r.staged.nodes <==> Referenced(r.staged.ways, k) && k in store.nodes)
  {
    var ways := SelectIds(store.ways, ids);
    NoRowsMeansNoMatch(store.ways, ids);
    if |ways| < 1 then
      NotFound(WayKind, ids)
    else
      Found(BackfillWayNodes(Tables(map[], ways, map[]), store, wayNodes))
  }

  /** `relations(ids)`, xapi.py lines 141-165. */
  function RelationLookup(store: Tables, ids: seq<int>): (r: Lookup)
    ensures r.NotFound? <==> forall k :: k in ids ==> k !in store.relations
    ensures r.NotFound? ==> r == NotFound(RelationKind, ids)
    ensures r.Found? ==>
      && r.staged.nodes == map[] && r.staged.ways == map[]
      && (forall k :: k in r.staged.relations <==> k in ids && k in store.relations)
  {
    var relations := SelectIds(store.relations, ids);
    NoRowsMeansNoMatch(store.relations, ids);
    if |relations| < 1 then
      NotFound(RelationKind, ids)
    else
      Found(Tables(map[], map[], relations))
  }

  /** Every route stages rows copied from the store, each under its own id. */
  lemma LookupsStageStoredRows(store: Tables, ids: seq<int>, wayNodes: seq<int>)
    requires WellKeyed(store)
    requires forall k :: k in wayNodes <==> Referenced(SelectIds(store.ways, ids), k)
    ensures NodeLookup(store, ids).Found? ==>
      StagedFrom(NodeLookup(store, ids).staged, store) && WellKeyed(NodeLookup(store, ids).staged)
    ensures WayLookup(store, ids, wayNodes).Found? ==>
      StagedFrom(WayLookup(store, ids, wayNodes).staged, store) && WellKeyed(WayLookup(store, ids, wayNodes).staged)
    ensures RelationLookup(store, ids).Found? ==>
      StagedFrom(RelationLookup(store, ids).staged, store) && WellKeyed(RelationLookup(store, ids).staged)
  {
    var ways := SelectIds(store.ways, ids);
    if |ways| >= 1 {
      var t := Tables(map[], ways, map[]);
      assert WayLookup(store, ids, wayNodes) == Found(BackfillWayNodes(t, store, wayNodes));
    }
  }

  /** The way route's staged tables are closed: every stored node its ways list is staged. */
  lemma WayLookupComplete(store: Tables, ids: seq<int>, wayNodes: seq<int>)
    requires WellKeyed(store)
    requires forall k :: k in wayNodes <==> Referenced(SelectIds(store.ways, ids), k)
    ensures var r := WayLookup(store, ids, wayNodes);
      r.Found? ==>
        forall w, k :: w in r.staged.ways && k in r.staged.ways[w].refs && k in store.nodes
          ==> k in r.staged.nodes
  {
    var ways := SelectIds(store.ways, ids);
    if |ways| >= 1 {
      BackfillComplete(Tables(map[], ways, map[]), store, wayNodes);
    }
  }
}

=== FILE: wrappers.dfy ===
/** Optional values, used wherever a reader may reject its input. */
module Wrappers {

  datatype Option<+T> = None | Some(value: T)
}

=== FILE: xml.dfy ===
/**
  The chunks `stream_osm_data` yields for the staged rows: a fixed header,
  every node, then every way, then every relation, then the footer.
  A chunk is one string handed to the HTTP response, in order.
 */
module Xml {
  import opened Osm
  import opened Decimal

  const XmlDeclaration := "<?xml version=\"1.0\" encoding=\"UTF-8\"?>\n"
  const OsmOpen := "<osm version=\"0.6\" generator=\"pyxapi\" copyright=\"OpenStreetMap and contributors\" attribution=\"http://www.openstreetmap.org/copyright\" license=\"http://opendatacommons.org/licenses/odbl/1-0/\">\n"
  const OsmClose := "</osm>\n"

  /** The chunk that ends a start tag that has children, and the one that self-closes it. */
  const OpenEnd := ">\n"
  const SelfClose := "/>\n"

  const NodeStart := "<node id=\""
  const WayStart := "<way id=\""
  const RelationStart := "<relation id=\""
  const NodeClose := "</node>\n"
  const WayClose := "</way>\n"
  const RelationClose := "</relation>\n"

  const TagStart := "<tag k='"
  const TagMid := "' v='"
  const TagEnd := "'/>\n"

  /** One hstore entry, written with no escaping of either string. */
  function TagLine(t: Tag): string {
    TagStart + t.key + TagMid + t.value + TagEnd
  }

  function TagLines(tags: Tags): seq<string> {
    seq(|tags|, i requires 0 <= i < |tags| => TagLine(tags[i]))
  }

  /** The start tag of a node, left open: the next chunk closes or continues it. */
  function NodeOpen(n: Node): string {
    NodeStart + IntToString(n.id) + NodeAttributes(n)
  }

  /** Everything after the id: the closing quote of `id` and the remaining attributes. */
  function NodeAttributes(n: Node): string {
    "\" version=\"" + IntToString(n.version)
      + "\" changeset=\"" + IntToString(n.changeset)
      + "\" lat=\"" + n.lat + "\" lon=\"" + n.lon
      + "\" uid=\"" + IntToString(n.uid)
      + "\" visible=\"true\" timestamp=\"" + n.timestamp + "\""
  }

  function WayOpen(w: Way): string {
    WayStart + IntToString(w.id) + WayAttributes(w)
  }

  function WayAttributes(w: Way): string {
    "\" version=\"" + IntToString(w.version)
      + "\" changeset=\"" + IntToString(w.changeset)
      + "\" uid=\"" + IntToString(w.uid)
      + "\" visible=\"true\" timestamp=\"" + w.timestamp + "\""
  }

  /** Unlike the other two, a relation's start line already ends in `>` and a newline. */
  function RelationOpen(r: Relation): string {
    RelationStart + IntToString(r.id) + RelationAttributes(r)
  }

  function RelationAttributes(r: Relation): string {
    "\" version=\"" + IntToString(r.version)
      + "\" changeset=\"" + IntToString(r.changeset)
      + "\" uid=\"" + IntToString(r.uid)
      + "\" visible=\"true\" timestamp=\"" + r.timestamp + "\"" + OpenEnd
  }

  /** Recognises a tag line by its fixed start and end, whatever lies between. */
  predicate IsTagLine(c: string) {
    && |c| >= |TagStart| + |TagEnd|
    && c[..|TagStart|] == TagStart
    && c[|c| - |TagEnd|..] == TagEnd
  }

  function CountTagLines(cs: seq<string>): nat {
    if cs == [] then 0 else (if IsTagLine(cs[0]) then 1 else 0) + CountTagLines(cs[1..])
  }

  lemma {:induction false} CountTagLinesAppend(a: seq<string>, b: seq<string>)
    ensures CountTagLines(a + b) == CountTagLines(a) + CountTagLines(b)
    decreases |a|
  {
    if a == [] {
      assert a + b == b;
    } else {
      assert (a + b)[1..] == a[1..] + b;
      CountTagLinesAppend(a[1..], b);
    }
  }

  lemma TagLineIsTagLine(t: Tag)
    ensures IsTagLine(TagLine(t))
  {
    var line := TagLine(t);
    assert line[..|TagStart|] == TagStart;
    assert line[|line| - |TagEnd|..] == TagEnd;
  }

  /** A chunk whose second character is not `t` cannot be a tag line. */
  lemma NotTagLine(c: string)
    requires |c| >= 2 && c[1] != 't'
    ensures !IsTagLine(c)
  {
    assert c[1] != TagStart[1];
  }

  lemma {:induction false} TagLinesAreTagLines(tags: Tags)
    ensures CountTagLines(TagLines(tags)) == |tags|
    decreases |tags|
  {
    if tags != [] {
      TagLineIsTagLine(tags[0]);
      assert TagLines(tags)[1..] == TagLines(tags[1..]);
      TagLinesAreTagLines(tags[1..]);
    }
  }

  /** Shared tail of nodes and ways: self-close, or `>`, the tag lines and `close`. */
  function TaggedBody(tags: Tags, close: string): seq<string> {
    if |tags| > 0 then [OpenEnd] + TagLines(tags) + [close] else [SelfClose]
  }

  /** A marker chunk, the tag lines and a closing chunk hold one tag line per tag. */
  lemma MarkedLinesCount(marker: string, tags: Tags, close: string)
    requires !IsTagLine(marker) && !IsTagLine(close)
    ensures CountTagLines([marker] + TagLines(tags) + [close]) == |tags|
  {
    CountTagLinesAppend([marker] + TagLines(tags), [close]);
    CountTagLinesAppend([marker], TagLines(tags));
    TagLinesAreTagLines(tags);
  }

  lemma TaggedBodyCount(tags: Tags, close: string)
    requires !IsTagLine(close)
    ensures CountTagLines(TaggedBody(tags, close)) == |tags|
  {
    if |tags| > 0 {
      MarkedLinesCount(OpenEnd, tags, close);
    }
  }

  /** Positions in an element laid out as a start chunk, a marker, some lines and a close. */
  lemma ElementLayout<T>(open: T, marker: T, lines: seq<T>, close: T, rest: seq<T>)
    ensures var cs := [open] + ([marker] + lines + [close]) + rest;
      && |cs| == |lines| + 3 + |rest|
      && cs[0] == open && cs[1] == marker
      && cs[2..] == lines + ([close] + rest)
      && cs[2 + |lines|] == close
  {
    var cs := [open] + ([marker] + lines + [close]) + rest;
    assert cs[2..] == lines + ([close] + rest);
  }

  lemma ElementEnd<T>(open: T, marker: T, lines: seq<T>, close: T)
    ensures var cs := [open] + ([marker] + lines + [close]);
      && |cs| == |lines| + 3 && cs[0] == open && cs[1] == marker && cs[|cs| - 1] == close
  {
  }

  /** Appending to a string that ends in `e` gives a string that still ends in `e`. */
  lemma EndsWithAfter<T>(a: seq<T>, b: seq<T>, e: seq<T>)
    requires |e| <= |b| && b[|b| - |e|..] == e
    ensures |e| <= |a + b| && (a + b)[|a + b| - |e|..] == e
  {
    assert (a + b)[|a + b| - |e|..] == b[|b| - |e|..];
  }

  /** An element start line is never taken for a tag line: its second character differs. */
  lemma StartNotTagLine(start: string, c: string)
    requires |start| >= 2 && start[1] != 't'
    requires |c| >= |start| && c[..|start|] == start
    ensures !IsTagLine(c)
  {
    assert c[1] == start[1];
    NotTagLine(c);
  }

  function NodeChunks(n: Node): (r: seq<string>)
    ensures |r| >= 2 && r[0] == NodeOpen(n)
    ensures r[|r| - 1] == SelfClose <==> |n.tags| == 0
    ensures |n.tags| > 0 ==> r[1] == OpenEnd && r[|r| - 1] == NodeClose
    ensures CountTagLines(r) == |n.tags|
  {
    var r := [NodeOpen(n)] + TaggedBody(n.tags, NodeClose);
    StartNotTagLine(NodeStart, NodeOpen(n));
    TaggedBodyCount(n.tags, NodeClose);
    CountTagLinesAppend([NodeOpen(n)], TaggedBody(n.tags, NodeClose));
    r
  }

  function WayChunks(w: Way): (r: seq<string>)
    ensures |r| >= 2 && r[0] == WayOpen(w)
    ensures r[|r| - 1] == SelfClose <==> |w.tags| == 0
    ensures |w.tags| > 0 ==> r[1] == OpenEnd && r[|r| - 1] == WayClose
    ensures CountTagLines(r) == |w.tags|
  {
    var r := [WayOpen(w)] + TaggedBody(w.tags, WayClose);
    StartNotTagLine(WayStart, WayOpen(w));
    TaggedBodyCount(w.tags, WayClose);
    CountTagLinesAppend([WayOpen(w)], TaggedBody(w.tags, WayClose));
    r
  }

  /** The relation's marker chunk comes after a start line that is already closed. */
  function RelationMarker(tags: Tags): string {
    if |tags| > 0 then OpenEnd else SelfClose
  }

  function RelationChunks(r: Relation): (cs: seq<string>)
    ensures |cs| >= 3 && cs[0] == RelationOpen(r)
    ensures cs[0][|cs[0]| - 2..] == OpenEnd
    ensures cs[1] == (if |r.tags| > 0 then OpenEnd else SelfClose)
    ensures cs[|cs| - 1] == RelationClose
    ensures CountTagLines(cs) == |r.tags|
  {
    var open, marker := RelationOpen(r), RelationMarker(r.tags);
    var cs := [open] + ([marker] + TagLines(r.tags) + [RelationClose]);
    RelationOpenEnds(r);
    ElementEnd(open, marker, TagLines(r.tags), RelationClose);
    StartNotTagLine(RelationStart, open);
    NotTagLine(marker);
    NotTagLine(RelationClose);
    MarkedLinesCount(marker, r.tags, RelationClose);
    CountTagLinesAppend([open], [marker] + TagLines(r.tags) + [RelationClose]);
    cs
  }

  lemma RelationOpenEnds(r: Relation)
    ensures |RelationOpen(r)| >= 2 && RelationOpen(r)[|RelationOpen(r)| - 2..] == OpenEnd
  {
    var head := "\" version=\"" + IntToString(r.version)
      + "\" changeset=\"" + IntToString(r.changeset)
      + "\" uid=\"" + IntToString(r.uid)
      + "\" visible=\"true\" timestamp=\"" + r.timestamp + "\"";
    EndsWithAfter(head, OpenEnd, OpenEnd);
    EndsWithAfter(RelationStart + IntToString(r.id), RelationAttributes(r), OpenEnd);
  }

  function NodeBlock(ns: seq<Node>): seq<string> {
    if ns == [] then [] else NodeChunks(ns[0]) + NodeBlock(ns[1..])
  }

  function WayBlock(ws: seq<Way>): seq<string> {
    if ws == [] then [] else WayChunks(ws[0]) + WayBlock(ws[1..])
  }

  function RelationBlock(rs: seq<Relation>): seq<string> {
    if rs == [] then [] else RelationChunks(rs[0]) + RelationBlock(rs[1..])
  }

  /**
    The whole document for rows already in `ORDER BY id` order:
    header, node block, way block, relation block, footer.
   */
  function StreamOsmData(ns: seq<Node>, ws: seq<Way>, rs: seq<Relation>): (r: seq<string>)
    ensures |r| >= 3
    ensures r[0] == XmlDeclaration && r[1] == OsmOpen
    ensures r[|r| - 1] == OsmClose
  {
    [XmlDeclaration, OsmOpen] + NodeBlock(ns) + WayBlock(ws) + RelationBlock(rs) + [OsmClose]
  }

  /** The response body: the chunks written one after another, boundaries lost. */
  function Body(cs: seq<string>): (b: string)
    ensures cs == [] ==> b == []
    ensures |cs| > 0 ==> |cs[0]| <= |b| && b[..|cs[0]|] == cs[0]
  {
    if cs == [] then [] else cs[0] + Body(cs[1..])
  }

  lemma {:induction false} BodyAppend(a: seq<string>, b: seq<string>)
    ensures Body(a + b) == Body(a) + Body(b)
    decreases |a|
  {
    if a == [] {
      assert a + b == b;
    } else {
      assert (a + b)[1..] == a[1..] + b;
      BodyAppend(a[1..], b);
    }
  }

  /**
    The source does not escape tag text, so two different tags can yield the
    same line; reading tags back therefore needs keys free of apostrophes.
   */
  lemma TagLineAmbiguous()
    ensures Tag("a' v='b", "c") != Tag("a", "b' v='c")
    ensures TagLine(Tag("a' v='b", "c")) == TagLine(Tag("a", "b' v='c"))
  {
    assert TagLine(Tag("a' v='b", "c")) == "<tag k='a' v='b' v='c'/>\n";
    assert TagLine(Tag("a", "b' v='c")) == "<tag k='a' v='b' v='c'/>\n";
  }
}

=== FILE: xml_read.dfy ===
/**
  A reader for the chunk stream of `Xml.StreamOsmData`. It recovers, for every
  element, its kind, its id and its tags. It checks the layout of each
  element's chunks and the id on its start chunk, but not the other attributes
  there: a bare `<node id="5"` is read as a node start. Ways are written with
  no `<nd ref=.../>` children, and the reader expects none. It is the
  serializer's partner: reading back a rendered document gives the rows'
  kinds, ids and tags, in document order.
 */
module XmlRead {
  import opened Wrappers
  import opened Osm
  import opened Decimal
  import opened Xml

  /** What a reader of the document learns about one element. */
  datatype Element = Element(kind: Kind, id: int, tags: Tags)

  function NodeElements(ns: seq<Node>): seq<Element> {
    seq(|ns|, i requires 0 <= i < |ns| => Element(NodeKind, ns[i].id, ns[i].tags))
  }

  function WayElements(ws: seq<Way>): seq<Element> {
    seq(|ws|, i requires 0 <= i < |ws| => Element(WayKind, ws[i].id, ws[i].tags))
  }

  function RelationElements(rs: seq<Relation>): seq<Element> {
    seq(|rs|, i requires 0 <= i < |rs| => Element(RelationKind, rs[i].id, rs[i].tags))
  }

  /** The elements a document for these rows should list, in the order it lists them. */
  function ElementsOf(ns: seq<Node>, ws: seq<Way>, rs: seq<Relation>): seq<Element> {
    NodeElements(ns) + WayElements(ws) + RelationElements(rs)
  }

  /** Keys free of apostrophes: the only tags whose unescaped lines can be read back. */
  predicate PlainTags(tags: Tags) {
    forall i :: 0 <= i < |tags| ==> '\'' !in tags[i].key
  }

  predicate PlainRows(ns: seq<Node>, ws: seq<Way>, rs: seq<Relation>) {
    && (forall i :: 0 <= i < |ns| ==> PlainTags(ns[i].tags))
    && (forall i :: 0 <= i < |ws| ==> PlainTags(ws[i].tags))
    && (forall i :: 0 <= i < |rs| ==> PlainTags(rs[i].tags))
  }

  function Rank(k: Kind): nat {
    match k
    case NodeKind => 0
    case WayKind => 1
    case RelationKind => 2
  }

  /** Nodes before ways before relations; ascending ids within one kind. */
  predicate Precedes(a: Element, b: Element) {
    Rank(a.kind) < Rank(b.kind) || (a.kind == b.kind && a.id < b.id)
  }

  predicate InDocumentOrder(es: seq<Element>) {
    forall i, j :: 0 <= i < j < |es| ==> Precedes(es[i], es[j])
  }

  predicate IdsAscending(es: seq<Element>) {
    forall i, j :: 0 <= i < j < |es| ==> es[i].id < es[j].id
  }

  predicate StartsWith(c: string, prefix: string) {
    |prefix| <= |c| && c[..|prefix|] == prefix
  }

  /** The text up to (not including) the first double quote. */
  function TakeUntilQuote(s: string): (r: string)
    ensures |r| <= |s| && r == s[..|r|]
    ensures '"' !in r
    ensures |r| < |s| ==> s[|r|] == '"'
  {
    if s == [] || s[0] == '"' then [] else [s[0]] + TakeUntilQuote(s[1..])
  }

  /** The id of a start line beginning with `start`, read up to the closing quote. */
  function ReadOpenId(c: string, start: string): Option<int> {
    if StartsWith(c, start) then ParseInt(TakeUntilQuote(c[|start|..])) else None
  }

  function IndexOfApostrophe(s: string): (j: nat)
    ensures j <= |s|
    ensures forall i :: 0 <= i < j ==> s[i] != '\''
    ensures j < |s| ==> s[j] == '\''
  {
    if s == [] || s[0] == '\'' then 0 else 1 + IndexOfApostrophe(s[1..])
  }

  /** Splits a tag line at the first apostrophe after `k='`. */
  function ReadTagLine(c: string): Option<Tag> {
    if IsTagLine(c) then
      var mid := c[|TagStart|..|c| - |TagEnd|];
      var j := IndexOfApostrophe(mid);
      if j + |TagMid| <= |mid| && mid[j..j + |TagMid|] == TagMid
      then Some(Tag(mid[..j], mid[j + |TagMid|..]))
      else None
    else None
  }

  /** Reads the maximal run of tag lines at the front of `cs`, one tag per chunk. */
  function ReadTags(cs: seq<string>): (r: Option<Tags>)
    ensures r.Some? ==> |r.value| <= |cs|
    decreases |cs|
  {
    if cs != [] && IsTagLine(cs[0]) then
      match ReadTagLine(cs[0])
      case None => None
      case Some(t) =>
        match ReadTags(cs[1..])
        case None => None
        case Some(ts) => Some([t] + ts)
    else Some([])
  }

  /** A node or way: start line, then `/>`, or `>`, at least one tag line and `close`. */
  function ReadTaggedElement(kind: Kind, start: string, close: string, cs: seq<string>)
    : (r: Option<(Element, nat)>)
    requires |cs| > 0
    ensures r.Some? ==> 0 < r.value.1 <= |cs|
  {
    match ReadOpenId(cs[0], start)
    case None => None
    case Some(id) =>
      if |cs| >= 2 && cs[1] == SelfClose then Some((Element(kind, id, []), 2))
      else if |cs| >= 2 && cs[1] == OpenEnd then
        match ReadTags(cs[2..])
        case None => None
        case Some(tags) =>
          if |tags| > 0 && 2 + |tags| < |cs| && cs[2 + |tags|] == close
          then Some((Element(kind, id, tags), |tags| + 3))
          else None
      else None
  }

  /**
    A relation: a start line ending in `>`, a marker that is `>` when tags
    follow and `/>` when none do, the tag lines, then `</relation>`.
   */
  function ReadRelationElement(cs: seq<string>): (r: Option<(Element, nat)>)
    requires |cs| > 0
    ensures r.Some? ==> 0 < r.value.1 <= |cs|
  {
    match ReadOpenId(cs[0], RelationStart)
    case None => None
    case Some(id) =>
      if |cs[0]| >= 2 && cs[0][|cs[0]| - 2..] == OpenEnd && |cs| >= 2
         && (cs[1] == OpenEnd || cs[1] == SelfClose) then
        match ReadTags(cs[2..])
        case None => None
        case Some(tags) =>
          if (cs[1] == OpenEnd <==> |tags| > 0) && 2 + |tags| < |cs| && cs[2 + |tags|] == RelationClose
          then Some((Element(RelationKind, id, tags), |tags| + 3))
          else None
      else None
  }

  /** One element at the front of `cs`, with the number of chunks it spans. */
  function ReadElement(cs: seq<string>): (r: Option<(Element, nat)>)
    ensures r.Some? ==> 0 < r.value.1 <= |cs|
  {
    if cs == [] then None
    else if StartsWith(cs[0], NodeStart) then ReadTaggedElement(NodeKind, NodeStart, NodeClose, cs)
    else if StartsWith(cs[0], WayStart) then ReadTaggedElement(WayKind, WayStart, WayClose, cs)
    else if StartsWith(cs[0], RelationStart) then ReadRelationElement(cs)
    else None
  }

  function ReadElements(cs: seq<string>): Option<seq<Element>>
    decreases |cs|
  {
    if cs == [] then Some([])
    else
      match ReadElement(cs)
      case None => None
      case Some((e, n)) =>
        match ReadElements(cs[n..])
        case None => None
        case Some(es) => Some([e] + es)
  }

  /** Reads a whole document: the fixed header, the elements, the footer. */
  function Decode(cs: seq<string>): Option<seq<Element>> {
    if |cs| >= 3 && cs[0] == XmlDeclaration && cs[1] == OsmOpen && cs[|cs| - 1] == OsmClose
    then ReadElements(cs[2..|cs| - 1])
    else None
  }

  function Prepend(es: seq<Element>, r: Option<seq<Element>>): Option<seq<Element>> {
    match r
    case None => None
    case Some(rest) => Some(es + rest)
  }

  // ---------------------------------------------------------------------
  // Reading back what the serializer writes
  // ---------------------------------------------------------------------

  lemma {:induction false} TakeUntilQuoteOfPrefix(a: string, b: string)
    requires '"' !in a
    requires |b| > 0 && b[0] == '"'
    ensures TakeUntilQuote(a + b) == a
    decreases |a|
  {
    if a == [] {
      assert a + b == b;
    } else {
      assert (a + b)[1..] == a[1..] + b;
      TakeUntilQuoteOfPrefix(a[1..], b);
    }
  }

  /** The id written after `start` is the id read back. */
  lemma ReadOpenIdOfRendered(start: string, id: int, tail: string)
    requires |tail| > 0 && tail[0] == '"'
    ensures ReadOpenId(start + IntToString(id) + tail, start) == Some(id)
  {
    var c := start + IntToString(id) + tail;
    assert c[..|start|] == start;
    assert c[|start|..] == IntToString(id) + tail;
    TakeUntilQuoteOfPrefix(IntToString(id), tail);
    ParseIntToString(id);
  }

  lemma ReadTagLineOfRendered(t: Tag)
    requires '\'' !in t.key
    ensures ReadTagLine(TagLine(t)) == Some(t)
  {
    var c := TagLine(t);
    TagLineIsTagLine(t);
    var mid := c[|TagStart|..|c| - |TagEnd|];
    assert mid == t.key + TagMid + t.value;
    var k := |t.key|;
    assert mid[k] == '\'';
    assert forall i :: 0 <= i < k ==> mid[i] == t.key[i];
    assert IndexOfApostrophe(mid) == k;
    assert mid[k..k + |TagMid|] == TagMid;
    assert mid[..k] == t.key;
    assert mid[k + |TagMid|..] == t.value;
  }

  lemma {:induction false} ReadTagsOfRendered(tags: Tags, rest: seq<string>)
    requires PlainTags(tags)
    requires rest == [] || !IsTagLine(rest[0])
    ensures ReadTags(TagLines(tags) + rest) == Some(tags)
    decreases |tags|
  {
    var cs := TagLines(tags) + rest;
    if tags == [] {
      assert cs == rest;
    } else {
      TagLineIsTagLine(tags[0]);
      ReadTagLineOfRendered(tags[0]);
      assert cs[1..] == TagLines(tags[1..]) + rest;
      ReadTagsOfRendered(tags[1..], rest);
      assert tags == [tags[0]] + tags[1..];
    }
  }

  /** A start line beginning with one start string does not begin with another. */
  lemma StartsDiffer(c: string, s1: string, s2: string)
    requires StartsWith(c, s1)
    requires |s1| >= 2 && |s2| >= 2 && s1[1] != s2[1]
    ensures !StartsWith(c, s2)
  {
    assert c[1] == s1[1];
  }

  /** A node or way element, from any start chunk that reads as its id. */
  lemma TaggedElementOfRendered(kind: Kind, start: string, close: string,
                                open: string, id: int, tags: Tags, rest: seq<string>)
    requires ReadOpenId(open, start) == Some(id)
    requires PlainTags(tags)
    requires !IsTagLine(close)
    ensures ReadTaggedElement(kind, start, close, [open] + TaggedBody(tags, close) + rest)
            == Some((Element(kind, id, tags), 1 + |TaggedBody(tags, close)|))
  {
    if |tags| > 0 {
      TaggedElementWithTags(kind, start, close, open, id, tags, rest);
    } else {
      TaggedElementWithoutTags(kind, start, close, open, id, rest);
    }
  }

  lemma TaggedElementWithoutTags(kind: Kind, start: string, close: string,
                                 open: string, id: int, rest: seq<string>)
    requires ReadOpenId(open, start) == Some(id)
    ensures ReadTaggedElement(kind, start, close, [open] + [SelfClose] + rest)
            == Some((Element(kind, id, []), 2))
  {
    var cs := [open] + [SelfClose] + rest;
    assert cs[0] == open && cs[1] == SelfClose;
  }

  lemma TaggedElementWithTags(kind: Kind, start: string, close: string,
                              open: string, id: int, tags: Tags, rest: seq<string>)
    requires ReadOpenId(open, start) == Some(id)
    requires |tags| > 0 && PlainTags(tags)
    requires !IsTagLine(close)
    ensures ReadTaggedElement(kind, start, close, [open] + ([OpenEnd] + TagLines(tags) + [close]) + rest)
            == Some((Element(kind, id, tags), |tags| + 3))
  {
    ElementLayout(open, OpenEnd, TagLines(tags), close, rest);
    ReadTagsOfRendered(tags, [close] + rest);
  }

  lemma NodeElementOfRendered(n: Node, rest: seq<string>)
    requires PlainTags(n.tags)
    ensures ReadElement(NodeChunks(n) + rest)
            == Some((Element(NodeKind, n.id, n.tags), |NodeChunks(n)|))
  {
    var cs := NodeChunks(n) + rest;
    assert cs == [NodeStart + IntToString(n.id) + NodeAttributes(n)] + TaggedBody(n.tags, NodeClose) + rest;
    assert StartsWith(cs[0], NodeStart);
    NotTagLine(NodeClose);
    ReadOpenIdOfRendered(NodeStart, n.id, NodeAttributes(n));
    TaggedElementOfRendered(NodeKind, NodeStart, NodeClose, cs[0], n.id, n.tags, rest);
  }

  lemma WayElementOfRendered(w: Way, rest: seq<string>)
    requires PlainTags(w.tags)
    ensures ReadElement(WayChunks(w) + rest)
            == Some((Element(WayKind, w.id, w.tags), |WayChunks(w)|))
  {
    var cs := WayChunks(w) + rest;
    assert cs == [WayStart + IntToString(w.id) + WayAttributes(w)] + TaggedBody(w.tags, WayClose) + rest;
    assert StartsWith(cs[0], WayStart);
    StartsDiffer(cs[0], WayStart, NodeStart);
    NotTagLine(WayClose);
    ReadOpenIdOfRendered(WayStart, w.id, WayAttributes(w));
    TaggedElementOfRendered(WayKind, WayStart, WayClose, cs[0], w.id, w.tags, rest);
  }

  lemma RelationElementOfRendered(r: Relation, rest: seq<string>)
    requires PlainTags(r.tags)
    ensures ReadElement(RelationChunks(r) + rest)
            == Some((Element(RelationKind, r.id, r.tags), |RelationChunks(r)|))
  {
    RelationOpenReads(r);
    RelationChunksShape(r);
    RelationElementWithTags(RelationOpen(r), r.id, r.tags, rest);
    ReadElementOfRelation(RelationChunks(r) + rest);
  }

  lemma RelationChunksShape(r: Relation)
    ensures RelationChunks(r)
      == [RelationOpen(r)] + ([RelationMarker(r.tags)] + TagLines(r.tags) + [RelationClose])
    ensures |RelationChunks(r)| == |r.tags| + 3
  {
  }

  /** A relation's start line is read as one, with its id. */
  lemma RelationOpenReads(r: Relation)
    ensures StartsWith(RelationOpen(r), RelationStart)
    ensures !StartsWith(RelationOpen(r), NodeStart) && !StartsWith(RelationOpen(r), WayStart)
    ensures ReadOpenId(RelationOpen(r), RelationStart) == Some(r.id)
  {
    var open := RelationOpen(r);
    assert open[..|RelationStart|] == RelationStart;
    StartsDiffer(open, RelationStart, NodeStart);
    StartsDiffer(open, RelationStart, WayStart);
    ReadOpenIdOfRendered(RelationStart, r.id, RelationAttributes(r));
  }

  lemma ReadElementOfRelation(cs: seq<string>)
    requires |cs| > 0 && StartsWith(cs[0], RelationStart)
    requires !StartsWith(cs[0], NodeStart) && !StartsWith(cs[0], WayStart)
    ensures ReadElement(cs) == ReadRelationElement(cs)
  {
  }

  lemma RelationElementWithTags(open: string, id: int, tags: Tags, rest: seq<string>)
    requires ReadOpenId(open, RelationStart) == Some(id)
    requires |open| >= 2 && open[|open| - 2..] == OpenEnd
    requires PlainTags(tags)
    ensures ReadRelationElement([open] + ([RelationMarker(tags)] + TagLines(tags) + [RelationClose]) + rest)
            == Some((Element(RelationKind, id, tags), |tags| + 3))
  {
    ElementLayout(open, RelationMarker(tags), TagLines(tags), RelationClose, rest);
    NotTagLine(RelationClose);
    ReadTagsOfRendered(tags, [RelationClose] + rest);
  }

  lemma ReadElementsStep(cs: seq<string>, e: Element, n: nat, tail: seq<string>)
    requires ReadElement(cs) == Some((e, n))
    requires n <= |cs| && cs[n..] == tail
    ensures ReadElements(cs) == Prepend([e], ReadElements(tail))
  {
  }

  lemma PrependNothing(r: Option<seq<Element>>)
    ensures Prepend([], r) == r
  {
    if r.Some? {
      assert [] + r.value == r.value;
    }
  }

  lemma PrependTwice(e: Element, es: seq<Element>, r: Option<seq<Element>>)
    ensures Prepend([e], Prepend(es, r)) == Prepend([e] + es, r)
  {
    if r.Some? {
      assert [e] + (es + r.value) == ([e] + es) + r.value;
    }
  }

  lemma AppendAssoc<T>(a: seq<T>, b: seq<T>, c: seq<T>)
    ensures (a + b) + c == a + (b + c)
  {
  }

  lemma DropPrefix(a: seq<string>, b: seq<string>)
    ensures (a + b)[|a|..] == b
  {
  }

  lemma NodeBlockSplit(xs: seq<Node>, rest: seq<string>)
    requires xs != []
    ensures NodeBlock(xs) + rest == NodeChunks(xs[0]) + (NodeBlock(xs[1..]) + rest)
  {
    assert NodeBlock(xs) == NodeChunks(xs[0]) + NodeBlock(xs[1..]);
    AppendAssoc(NodeChunks(xs[0]), NodeBlock(xs[1..]), rest);
  }

  lemma NodeElementsSplit(xs: seq<Node>)
    requires xs != []
    ensures NodeElements(xs) == [Element(NodeKind, xs[0].id, xs[0].tags)] + NodeElements(xs[1..])
  {
  }

  lemma {:induction false} NodeBlockOfRendered(xs: seq<Node>, rest: seq<string>)
    requires forall i :: 0 <= i < |xs| ==> PlainTags(xs[i].tags)
    ensures ReadElements(NodeBlock(xs) + rest) == Prepend(NodeElements(xs), ReadElements(rest))
    decreases |xs|
  {
    if xs == [] {
      assert NodeBlock(xs) + rest == rest;
      assert NodeElements(xs) == [];
      PrependNothing(ReadElements(rest));
    } else {
      var chunks, tail := NodeChunks(xs[0]), NodeBlock(xs[1..]) + rest;
      var e := Element(NodeKind, xs[0].id, xs[0].tags);
      NodeBlockSplit(xs, rest);
      NodeElementsSplit(xs);
      NodeElementOfRendered(xs[0], tail);
      DropPrefix(chunks, tail);
      ReadElementsStep(chunks + tail, e, |chunks|, tail);
      NodeBlockOfRendered(xs[1..], rest);
      PrependTwice(e, NodeElements(xs[1..]), ReadElements(rest));
    }
  }

  lemma WayBlockSplit(xs: seq<Way>, rest: seq<string>)
    requires xs != []
    ensures WayBlock(xs) + rest == WayChunks(xs[0]) + (WayBlock(xs[1..]) + rest)
  {
    assert WayBlock(xs) == WayChunks(xs[0]) + WayBlock(xs[1..]);
    AppendAssoc(WayChunks(xs[0]), WayBlock(xs[1..]), rest);
  }

  lemma WayElementsSplit(xs: seq<Way>)
    requires xs != []
    ensures WayElements(xs) == [Element(WayKind, xs[0].id, xs[0].tags)] + WayElements(xs[1..])
  {
  }

  lemma {:induction false} WayBlockOfRendered(xs: seq<Way>, rest: seq<string>)
    requires forall i :: 0 <= i < |xs| ==> PlainTags(xs[i].tags)
    ensures ReadElements(WayBlock(xs) + rest) == Prepend(WayElements(xs), ReadElements(rest))
    decreases |xs|
  {
    if xs == [] {
      assert WayBlock(xs) + rest == rest;
      assert WayElements(xs) == [];
      PrependNothing(ReadElements(rest));
    } else {
      var chunks, tail := WayChunks(xs[0]), WayBlock(xs[1..]) + rest;
      var e := Element(WayKind, xs[0].id, xs[0].tags);
      WayBlockSplit(xs, rest);
      WayElementsSplit(xs);
      WayElementOfRendered(xs[0], tail);
      DropPrefix(chunks, tail);
      ReadElementsStep(chunks + tail, e, |chunks|, tail);
      WayBlockOfRendered(xs[1..], rest);
      PrependTwice(e, WayElements(xs[1..]), ReadElements(rest));
    }
  }

  lemma RelationBlockSplit(xs: seq<Relation>, rest: seq<string>)
    requires xs != []
    ensures RelationBlock(xs) + rest == RelationChunks(xs[0]) + (RelationBlock(xs[1..]) + rest)
  {
    assert RelationBlock(xs) == RelationChunks(xs[0]) + RelationBlock(xs[1..]);
    AppendAssoc(RelationChunks(xs[0]), RelationBlock(xs[1..]), rest);
  }

  lemma RelationElementsSplit(xs: seq<Relation>)
    requires xs != []
    ensures RelationElements(xs) == [Element(RelationKind, xs[0].id, xs[0].tags)] + RelationElements(xs[1..])
  {
  }

  lemma {:induction false} RelationBlockOfRendered(xs: seq<Relation>, rest: seq<string>)
    requires forall i :: 0 <= i < |xs| ==> PlainTags(xs[i].tags)
    ensures ReadElements(RelationBlock(xs) + rest) == Prepend(RelationElements(xs), ReadElements(rest))
    decreases |xs|
  {
    if xs == [] {
      assert RelationBlock(xs) + rest == rest;
      assert RelationElements(xs) == [];
      PrependNothing(ReadElements(rest));
    } else {
      var chunks, tail := RelationChunks(xs[0]), RelationBlock(xs[1..]) + rest;
      var e := Element(RelationKind, xs[0].id, xs[0].tags);
      RelationBlockSplit(xs, rest);
      RelationElementsSplit(xs);
      RelationElementOfRendered(xs[0], tail);
      DropPrefix(chunks, tail);
      ReadElementsStep(chunks + tail, e, |chunks|, tail);
      RelationBlockOfRendered(xs[1..], rest);
      PrependTwice(e, RelationElements(xs[1..]), ReadElements(rest));
    }
  }

  /**
    Round trip: reading the rendered document gives back every row's kind, id
    and tags, nodes first, then ways, then relations, each in input order.
   */
  lemma StreamSplit(ns: seq<Node>, ws: seq<Way>, rs: seq<Relation>)
    ensures var cs := StreamOsmData(ns, ws, rs);
      cs[2..|cs| - 1] == NodeBlock(ns) + (WayBlock(ws) + (RelationBlock(rs) + []))
  {
    Between(XmlDeclaration, OsmOpen, NodeBlock(ns), WayBlock(ws), RelationBlock(rs), OsmClose);
  }

  /** Stated over an arbitrary element type, so that no string equality is involved. */
  lemma Between<T>(h1: T, h2: T, a: seq<T>, b: seq<T>, c: seq<T>, f: T)
    ensures var cs := [h1, h2] + a + b + c + [f];
      cs[2..|cs| - 1] == a + (b + (c + []))
  {
    var cs := [h1, h2] + a + b + c + [f];
    assert |cs| == |a| + |b| + |c| + 3;
  }

  lemma ElementsSplit(ns: seq<Node>, ws: seq<Way>, rs: seq<Relation>)
    ensures ElementsOf(ns, ws, rs) == NodeElements(ns) + (WayElements(ws) + (RelationElements(rs) + []))
  {
  }

  lemma DecodeStreamOsmData(ns: seq<Node>, ws: seq<Way>, rs: seq<Relation>)
    requires PlainRows(ns, ws, rs)
    ensures Decode(StreamOsmData(ns, ws, rs)) == Some(ElementsOf(ns, ws, rs))
  {
    var nb, wb, rb := NodeBlock(ns), WayBlock(ws), RelationBlock(rs);
    StreamSplit(ns, ws, rs);
    RelationBlockOfRendered(rs, []);
    WayBlockOfRendered(ws, rb + []);
    NodeBlockOfRendered(ns, wb + (rb + []));
    ElementsSplit(ns, ws, rs);
  }

  /** With each block sorted by id, the document lists nodes, ways, relations, ids ascending. */
  lemma ElementsInDocumentOrder(ns: seq<Node>, ws: seq<Way>, rs: seq<Relation>)
    requires IdsAscending(NodeElements(ns))
    requires IdsAscending(WayElements(ws))
    requires IdsAscending(RelationElements(rs))
    ensures InDocumentOrder(ElementsOf(ns, ws, rs))
  {
    var a, b, c := NodeElements(ns), WayElements(ws), RelationElements(rs);
    var es := ElementsOf(ns, ws, rs);
    forall i, j | 0 <= i < j < |es|
      ensures Precedes(es[i], es[j])
    {
      if j < |a| {
        assert es[i] == a[i] && es[j] == a[j];
      } else if i >= |a| + |b| {
        assert es[i] == c[i - |a| - |b|] && es[j] == c[j - |a| - |b|];
      } else if i >= |a| && j < |a| + |b| {
        assert es[i] == b[i - |a|] && es[j] == b[j - |a|];
      } else {
        assert Rank(es[i].kind) < Rank(es[j].kind);
      }
    }
  }

  /**
    Once the chunks are joined into one body their boundaries are gone: a tag
    value holding `'/>`, a newline and `<tag k='...` forges a second tag line.
    Two nodes whose keys are free of apostrophes then send the same body,
    although their chunk sequences read back differently.
   */
  lemma JoinedTagValueForgesTag()
    ensures var a := Node(1, 1, 1, "0", "0", 1, "t", [Tag("a", "b'/>\n<tag k='c' v='d")]);
      var b := a.(tags := [Tag("a", "b"), Tag("c", "d")]);
      && PlainTags(a.tags) && PlainTags(b.tags)
      && ReadElement(NodeChunks(a)) != ReadElement(NodeChunks(b))
      && Body(NodeChunks(a)) == Body(NodeChunks(b))
  {
    var a := Node(1, 1, 1, "0", "0", 1, "t", [Tag("a", "b'/>\n<tag k='c' v='d")]);
    var b := a.(tags := [Tag("a", "b"), Tag("c", "d")]);
    assert NodeChunks(a) + [] == NodeChunks(a);
    assert NodeChunks(b) + [] == NodeChunks(b);
    NodeElementOfRendered(a, []);
    NodeElementOfRendered(b, []);
    SingleTagBody(a, b);
  }

  lemma SingleTagBody(a: Node, b: Node)
    requires a == Node(1, 1, 1, "0", "0", 1, "t", [Tag("a", "b'/>\n<tag k='c' v='d")])
    requires b == a.(tags := [Tag("a", "b"), Tag("c", "d")])
    ensures Body(NodeChunks(a)) == Body(NodeChunks(b))
  {
    var forged := TagLine(a.tags[0]);
    assert forged == TagLine(b.tags[0]) + TagLine(b.tags[1]);
    assert NodeOpen(a) == NodeOpen(b);
    assert NodeChunks(a) == [NodeOpen(a)] + [OpenEnd] + [forged] + [NodeClose];
    assert NodeChunks(b) == [NodeOpen(b)] + [OpenEnd] + [TagLine(b.tags[0])] + [TagLine(b.tags[1])] + [NodeClose];
    BodyOfSplit([NodeOpen(a), OpenEnd], [forged], [NodeClose]);
    BodyOfSplit([NodeOpen(b), OpenEnd], [TagLine(b.tags[0]), TagLine(b.tags[1])], [NodeClose]);
    assert [NodeOpen(a)] + [OpenEnd] + [forged] + [NodeClose] == [NodeOpen(a), OpenEnd] + [forged] + [NodeClose];
    assert [NodeOpen(b)] + [OpenEnd] + [TagLine(b.tags[0])] + [TagLine(b.tags[1])] + [NodeClose]
      == [NodeOpen(b), OpenEnd] + [TagLine(b.tags[0]), TagLine(b.tags[1])] + [NodeClose];
    BodyOfPair(NodeOpen(a), OpenEnd);
    BodyOfPair(TagLine(b.tags[0]), TagLine(b.tags[1]));
    BodyOfOne(forged);
    BodyOfOne(NodeClose);
  }

  lemma BodyOfSplit(x: seq<string>, y: seq<string>, z: seq<string>)
    ensures Body(x + y + z) == Body(x) + Body(y) + Body(z)
  {
    BodyAppend(x + y, z);
    BodyAppend(x, y);
  }

  lemma BodyOfOne(c: string)
    ensures Body([c]) == c
  {
    assert [c][1..] == [];
  }

  lemma BodyOfPair(c: string, d: string)
    ensures Body([c, d]) == c + d
  {
    assert [c, d][1..] == [d];
    BodyOfOne(d);
  }
}
